=== FILE: README.md ===
# Guild-Dump core, modelled in Dafny

Guild-Dump is an interactive tool that exports a Discord guild to CSV files. It
asks the operator which guild to export, a member limit, a message limit and
the text channels to read. It then writes `channels.csv`, `members.csv` and
`roles.csv`. For each selected channel it also writes `messages.csv`,
`attachments.csv`, `reactions.csv` and `embeds.csv`.

This project models the pure decision and mapping logic inside that glue:

- `Decimal` covers Python's base-10 `int(str)`, which the limit and guild-id
  checkers rely on. It also covers the decimal rendering of ids used in menu
  labels.
- `Prompt` covers `input_prompt`: an empty line becomes the default, and a
  value is returned only once the checker accepts it. It also covers the
  positive-limit prompts and the yes/no wrapper.
- `Selection` covers `request_guild`: the mode decided by the guild count,
  the pick list, and manual id entry. It also covers `request_channels`: the
  text-channel filter, the labels and the selection.
- `Dump` covers the rows of `dump_channels`, `dump_members`, `dump_roles` and
  `dump_messages`. `dump_messages` is modelled as one ordered trace of
  `writerow` calls across its four writers. This makes "headers first" and
  "an item row follows the row of its message" statable.
- `Records` holds the API objects as immutable records and the CSV cells.
  Timestamps are an abstract type. Their conversion to epoch seconds is a
  parameter `toEpoch`.

The operator is modelled as data. Typed lines are a `seq<string>`. A menu
answer is an `Option<nat>`, where `None` means the menu was dismissed and
`show()` returned `None`. The client's fetches are given sequences, and
`fetch_guild` is a function from id to result. Manual entry calls it twice,
once in the checker (guilddump.py:78) and once after the checker accepts
(guilddump.py:86). Each call gets its own function, `fetch` and `refetch`, so
the second call may answer differently and raise. When the two agree,
`ManualGuildSameFetch` shows that manual entry raises only for an id whose
first fetch failed outright. An interactive step ends as
`Done(value)`, `Raised` (an exception escapes), or `Unanswered`. `Unanswered`
means the input ended before a value was accepted. There `input()` raises
`EOFError`, which escapes the prompt as well.

Manual guild entry catches only `ValueError` and `discord.Forbidden`
(guilddump.py:79-82). Any other fetch error, such as `NotFound`, escapes the
prompt, so `GuildVerdict` answers `Raise` for it.

Rows are also read back by header name. `ColumnHolds(header, row, name, v)`
says that the column headed `name` holds `v`. Every header has distinct
names, so that fixes one cell.

## Model

| member | source | states |
|---|---|---|
| Decimal.ParseShow | guilddump.py:124 | `int()` applied to the decimal rendering of any integer gives that integer back |
| Decimal.ShowInjective | guilddump.py:89 | distinct ids render as distinct decimal strings |
| Decimal.ParseInt | guilddump.py:124 | `int()` accepts only text that, once stripped, ends in a digit and starts with a digit or a sign; a negative result has a leading minus |
| Decimal.Show | guilddump.py:89 | the decimal rendering of an integer is non-empty, all digits apart from a leading minus |
| Decimal.ParseExamples | guilddump.py:124 | the empty line and "abc" do not parse; an information separator (U+001C) is not skipped, while a surrounding space and line feed are |
| Prompt.InputPrompt | guilddump.py:10-24 | with no checker, the first line is returned, with an empty line replaced by the default; with a checker, a returned value is one the checker accepted, and it comes from one of the lines |
| Prompt.InputPromptUnanswered | guilddump.py:11-24 | the prompt never returns exactly when the checker rejects every line |
| Prompt.InputPromptFirstDecision | guilddump.py:11-24 | after rejected lines, the first accepted line is returned, the first raising checker call raises, and a rejection moves on to the next line |
| Prompt.Fill | guilddump.py:13 | `input() or default`: a non-empty line is kept, an empty one becomes the default, and the result is empty only when both are |
| Prompt.LimitVerdict | guilddump.py:122-130 | the limit checker never raises; it accepts a string exactly when `int()` parses it to a value above 0, so a `ValueError` counts as a rejection |
| Prompt.LimitAcceptsPositive | guilddump.py:122-130 | on decimal renderings, the limit checker accepts exactly the numbers greater than 0 |
| Prompt.LimitExamples | guilddump.py:122-130 | "0", "-1", "abc" and "" are rejected; "5000" is accepted and parses to 5000 |
| Prompt.InputPromptDecidedAt | guilddump.py:11-24 | for every line at once: when the lines before it were all rejected, an accepted line is what the prompt returns and a raising checker call is what it raises |
| Prompt.RequestLimit | guilddump.py:121-146 | the limit prompts never raise, every returned limit is at least 1, and it is the parse of a typed line or of the default; the first accepted line, after only rejected ones, is the one whose parse is returned |
| Prompt.RequestLimitDefault | guilddump.py:132 | an empty first answer gives the default limit 1000 |
| Prompt.RequestLimitUnanswered | guilddump.py:132 | the limit prompt stays unanswered exactly when every line is rejected |
| Prompt.YesNoAsWrittenIgnoresYes | guilddump.py:37-38 | whatever coroutine object the code as written compares, its answer differs from the awaited prompt's answer to "Yes" (see Findings) |
| Prompt.YesNoAsWritten | guilddump.py:37-38 | as written, the menu is never shown and the coroutine object never equals 0, so the answer is always no |
| Prompt.YesNo | guilddump.py:37-38 | with the menu result awaited, the answer is yes exactly when option 0 ("Yes") is chosen |
| Selection.SelectionMode | guilddump.py:67-73 | more than 50 guilds forces manual entry, at most 10 shows the list, and 11 to 50 asks the operator |
| Selection.Label | guilddump.py:89 | a menu label is the id's decimal rendering, a space, `(`, the given text and `)`, with the text recoverable from between the brackets |
| Selection.LabelId | guilddump.py:89 | the id read from the start of a label; an empty text names no id |
| Selection.GuildThresholds | guilddump.py:65-73 | 51 guilds force manual entry whatever the menus answer; 10 ignore the mode menu; 11 go manual on answer 1 and to the list on answer 0 |
| Selection.LabelRoundTrip | guilddump.py:89 | a menu label `"<id> (<name>)"` starts with its id, which reads back unchanged |
| Selection.GuildOptions | guilddump.py:88-89 | one label per fetched guild, in fetch order, each `Label(id, name)` of its guild and identifying that guild's id |
| Selection.PickFromList | guilddump.py:91 | the returned guild is `guilds[choice]`; a dismissed menu or an index past the end raises |
| Selection.GuildVerdict | guilddump.py:76-84 | an id is accepted iff it parses and the fetch finds the guild; it raises iff it parses and the fetch fails with an error other than `Forbidden` |
| Selection.FetchAgain | guilddump.py:86 | the second `fetch_guild` call returns the guild when found; `Forbidden` or any other error raises, since nothing catches it there |
| Selection.ManualGuild | guilddump.py:75-86 | a returned guild is the one the second call fetched for a typed id the checker accepted; a raise comes from a typed id whose checked fetch failed or whose second fetch did not find the guild; the entry stays unanswered iff every line is rejected; the first line after only rejected ones decides: accepted gives the second fetch of its id, raising gives a raise |
| Selection.RequestGuild | guilddump.py:63-91 | the path taken depends only on the number of accessible guilds and the mode answer; a returned guild is either a fetched one or one the second `fetch_guild` call returned for some id |
| Selection.TextChannelsMembers | guilddump.py:116 | the channel filter keeps every text channel and nothing else |
| Selection.TextChannels | guilddump.py:116 | the filter keeps only text channels and never grows the list |
| Selection.TextChannelsAppend | guilddump.py:116 | the channel filter keeps fetch order: it distributes over concatenation |
| Selection.TextChannelsSingle | guilddump.py:116 | a single channel is kept exactly when it is a text channel |
| Selection.ChannelOptions | guilddump.py:117 | one label per offered channel, each `Label(id, "#" + name)` of that channel and identifying its id |
| Selection.SelectChannels | guilddump.py:118 | the result is `options[i]` for each selected index, in selection order; a dismissed menu or a bad index raises |
| Selection.RequestChannels | guilddump.py:115-118 | the k-th returned channel is the text channel at the k-th selected index of the filtered list; it returns exactly when the menu answered and every index is in range, and otherwise raises; every returned channel is a fetched text channel |
| Dump.OptionalEpoch | guilddump.py:181 | an absent optional timestamp is passed to `writerow` as 0; a present one as its epoch seconds |
| Dump.NonEmptyStr | guilddump.py:237-238 | an absent or empty title or description is passed to `writerow` as `None`, never as an empty string |
| Dump.PartCell | guilddump.py:239-243 | an empty footer, image, thumbnail, video or author is passed to `writerow` as `None` |
| Dump.TypeLabel | guilddump.py:153-161 | each named class gets its own label (text, voice, category, stage), each as an if-and-only-if; "" exactly for the classes the code does not name |
| Dump.TypeLabelInjective | guilddump.py:153-161 | different channel classes never share a type label |
| Dump.DumpChannels | guilddump.py:149-168 | header first, then one four-column row per channel, in order, holding its id, creation time, name and type label |
| Dump.ChannelRow | guilddump.py:163-168 | a channel row is as wide as the channel header |
| Dump.ChannelRowFields | guilddump.py:150-168 | read by header name, the row holds the channel's id, creation time, name and type label |
| Dump.TextRowsAreOffered | guilddump.py:153-155 | a channel is written with type "text" exactly when the channel menu offers it |
| Dump.DumpMembers | guilddump.py:171-182 | header first, then `MemberRow` of each member of the limited fetch, in fetch order; with a limit at least the member count, every member is written |
| Dump.MemberRow | guilddump.py:175-182 | a member row is as wide as the member header |
| Dump.MemberRowFields | guilddump.py:172-182 | read by header name, the row holds the member's id, join time, `str(member)`, the nickname or `None`, the bot flag, and the boost date or 0 |
| Dump.DumpMembersPrefix | guilddump.py:174 | raising the member limit only appends rows: the smaller export is a prefix of the larger |
| Dump.DumpRoles | guilddump.py:185-198 | header first, then `RoleRow` of each role, in order |
| Dump.RoleRow | guilddump.py:189-198 | a role row is as wide as the role header |
| Dump.RoleRowFields | guilddump.py:186-198 | read by header name, the row holds id, native creation time, name, position, permission bits, member count, mentionable flag and native colour |
| Dump.DumpRolesAppend | guilddump.py:188-198 | each role's row depends on that role alone: exporting two lists in turn gives both sets of rows, in order, under one header |
| Records.ColumnHoldsUnique | guilddump.py:150 | under a header with distinct names, a column name fixes a single cell |
| Dump.HeadersDistinct | guilddump.py:150-205 | all seven headers have distinct column names |
| Dump.MessageRow | guilddump.py:208-214 | a message row is as wide as its header and keyed by the message id; a missing edit time is written as 0 |
| Dump.MessageRowFields | guilddump.py:202-214 | read by header name: id, author id, creation time, edit time or 0, content |
| Dump.AttachmentRow | guilddump.py:217-224 | an attachment row is as wide as its header and keyed by the message id |
| Dump.AttachmentRowFields | guilddump.py:203-224 | read by header name: message id, content type or `None`, size, filename, url, spoiler flag |
| Dump.EmojiAnimated | guilddump.py:231 | only a custom emoji can be reported as animated |
| Dump.ReactionRow | guilddump.py:227-232 | keyed by the message id; a Unicode emoji is written as itself with `is_animated` False; a custom emoji by its name with its own flag |
| Dump.ReactionRowFields | guilddump.py:204-232 | read by header name: message id, emoji name, `reaction_count` as the reaction's count, animation flag |
| Dump.EmbedRow | guilddump.py:235-246 | ten `writerow` arguments keyed by the message id; title and description are never empty strings, and are `None` exactly when absent or empty; the part columns are `None` or text; `field_count` is the number of fields; colour is `None` exactly when absent |
| Dump.EmbedRowFields | guilddump.py:205-246 | read by header name: message id, title and description as `x if x else None`, field count, colour or `None` |
| Dump.EmbedPartFields | guilddump.py:205-246 | read by header name: footer, image, thumbnail, video and author each hold that part's attribute, or `None` when the part is empty |
| Dump.ItemRowsContent | guilddump.py:215-246 | a message's item rows for a writer are its items' rows, in item order |
| Dump.MessageWrites | guilddump.py:207-246 | one message causes one write per item plus its message row, and the message row comes first |
| Dump.MessageWritesRows | guilddump.py:207-246 | per writer, a message sends exactly its message row, or exactly its item rows of that writer's kind |
| Dump.MessageWritesCount | guilddump.py:207-246 | one message sends one row to the message writer and exactly as many rows to each other writer as it has items of that kind |
| Dump.MessageWritesKeyed | guilddump.py:208-246 | every row written for a message starts with that message's id, and only the first goes to the message writer |
| Dump.HistoryCount | guilddump.py:207-246 | over a history, each writer receives the summed item count of its kind |
| Dump.HistoryForeignKeys | guilddump.py:207-246 | every attachment, reaction or embed row comes after a message row with the same id |
| Dump.HistoryMessageRows | guilddump.py:207-214 | the message writer receives one row per message, in history order |
| Dump.HistoryItemRows | guilddump.py:207-246 | over a history, the attachment, reaction and embed writers receive exactly their items' rows, message by message and item by item |
| Dump.DumpMessages | guilddump.py:201-246 | the first four writes are headers, each for its own writer's columns; an empty history writes nothing else; otherwise the first message's row follows them |
| Dump.DumpMessagesCounts | guilddump.py:201-246 | the four headers come first, each writer's header is its first row, and each writer then receives 1 plus the item total of its kind over the limited history |
| Dump.DumpMessagesKeyed | guilddump.py:207-246 | every data row after the headers starts with an integer key |
| Dump.DumpMessagesForeignKeys | guilddump.py:207-246 | each attachment, reaction or embed row follows the message row with the same key |

## Left out

- `request_client` (guilddump.py:41-60): logging in and validating a token are calls into the Discord client.
- `request_directory` (guilddump.py:94-112): filesystem checks and `mkdir`. Its create-directory path also depends on the `yesno_prompt` defect below.
- `option_prompt` and `select_prompt` (guilddump.py:27-34): the terminal menu is replaced by the operator's answers, given as data.
- `main` (guilddump.py:249-290): ordering the steps, aborting on an existing directory, opening files, CSV quoting, and `client.close()` in `finally`. These are I/O and resource lifetime.
- `KeyboardInterrupt` → `exit(1)` (guilddump.py:14-15) is process control. The end of the operator's input is the outcome `Unanswered`. The program's `input()` raises `EOFError` there, which `input_prompt` does not catch, so in the program that outcome ends the run with an exception.
- The coroutine-or-function dispatch on the checker (guilddump.py:19-21): every checker is a pure function to `Verdict`.
- Rows are the argument lists handed to `writerow`, not the bytes of the CSV files. `csv.writer` quotes fields and writes `None` as an empty field. So in the files an absent title, nickname or content type looks the same as an empty one. The `Null` versus `Str("")` distinction the contracts keep holds only for the `writerow` arguments.
- Dump.TextRowsAreOffered: assumes that the two `guild.fetch_channels()` calls, in `request_channels` (guilddump.py:116) and in `dump_channels` (guilddump.py:152), return the same list. Both are given the one sequence `channels`. The library makes no such promise, and a channel created between the calls would break the correspondence.
- `time.mktime(...timetuple())` depends on the local time zone and goes through floats. It is the parameter `toEpoch`.
- Pagination is modelled as `Records.Take`: `fetch_guilds(limit=51)`, `fetch_members(limit=...)` and `history(limit=...)` yield the first `limit` items of a given sequence. Which items and in what order are up to the library.
- Decimal.ParseInt: models ASCII digits and the six ASCII whitespace characters only. Python's `int()` also accepts other Unicode decimal digits and strips non-ASCII whitespace.
- Decimal.ParseInt and Decimal.ParseShow: no digit-count limit. Python 3.11 and later (and 3.10.7) raise `ValueError` in `int()` and `str()` for more than 4300 digits. The round trip is stated for every integer, while the program only survives ids of up to 4300 digits.
- Records.Emoji: a custom emoji's name is always present. The library allows a partial emoji with no name.
- `member.joined_at` is always present. If it were missing, the source would raise.
- `Attachment.is_spoiler()` and `str(member)` are library answers, stored as record fields.
- The `if message.attachments:` style guards (guilddump.py:215, 225, 233) are not modelled separately. Looping over an empty list writes nothing either way.

## Findings

| source | as written | input that shows it | evidently intended | confidence | as-written member | corrected member |
|---|---|---|---|---|---|---|
| guilddump.py:37-38 | `option_prompt(...)` is called without `await`, so the menu is never shown and the coroutine object is compared with 0; `yesno_prompt` is always False | any directory path that does not exist: no menu appears and the directory checker returns False | return True exactly when "Yes" is chosen | high, not executed | Prompt.YesNoAsWritten (shown by Prompt.YesNoAsWrittenIgnoresYes) | Prompt.YesNo |

=== FILE: decimal.dfy ===
/** Decimal text: the part of Python's `int(str)` the prompts rely on, and the
    decimal rendering of integers that f-strings produce for ids. */
module Decimal {
  import opened Wrappers

  predicate IsDigit(c: char) {
    '0' <= c <= '9'
  }

  /** The whitespace `int()` skips around a number: tab, line feed, vertical
      tab, form feed, carriage return and space. (`str.isspace` accepts more,
      but `int()` does not skip those.) */
  predicate IsSpace(c: char) {
    9 <= c as int <= 13 || c == ' '
  }

  function DigitValue(c: char): nat
    requires IsDigit(c)
  {
    (c as int) - ('0' as int)
  }

  function DigitChar(d: nat): (c: char)
    requires d < 10
    ensures IsDigit(c) && DigitValue(c) == d
  {
    (('0' as int) + d) as char
  }

  /** Number of whitespace characters at the start of `s`. */
  function LeadingSpaces(s: string): (n: nat)
    ensures n <= |s|
    ensures forall i :: 0 <= i < n ==> IsSpace(s[i])
    ensures n < |s| ==> !IsSpace(s[n])
  {
    if |s| > 0 && IsSpace(s[0]) then 1 + LeadingSpaces(s[1..]) else 0
  }

  /** Number of whitespace characters at the end of `s`. */
  function TrailingSpaces(s: string): (n: nat)
    ensures n <= |s|
    ensures forall i :: |s| - n <= i < |s| ==> IsSpace(s[i])
    ensures n < |s| ==> !IsSpace(s[|s| - n - 1])
  {
    if |s| > 0 && IsSpace(s[|s| - 1]) then 1 + TrailingSpaces(s[..|s| - 1]) else 0
  }

  /** The surrounding whitespace `int()` skips, removed. */
  function Strip(s: string): (t: string)
    ensures |t| > 0 ==> !IsSpace(t[0]) && !IsSpace(t[|t| - 1])
  {
    var u := s[LeadingSpaces(s)..];
    u[..|u| - TrailingSpaces(u)]
  }

  /** The digit run `int()` accepts after the sign: digits, with single
      underscores allowed only between two digits. */
  predicate WellFormedDigits(s: string) {
    && |s| > 0
    && IsDigit(s[0])
    && IsDigit(s[|s| - 1])
    && (forall i :: 0 <= i < |s| ==> IsDigit(s[i]) || s[i] == '_')
    && (forall i :: 0 <= i < |s| - 1 ==> s[i] == '_' ==> s[i + 1] != '_')
  }

  /** Value of a run of digits and underscores; underscores carry no value. */
  function DigitsValue(s: string): nat
    requires forall i :: 0 <= i < |s| ==> IsDigit(s[i]) || s[i] == '_'
  {
    if |s| == 0 then 0
    else if s[|s| - 1] == '_' then DigitsValue(s[..|s| - 1])
    else 10 * DigitsValue(s[..|s| - 1]) + DigitValue(s[|s| - 1])
  }

  function ParseDigits(s: string): (r: Option<nat>)
    ensures r.Some? <==> WellFormedDigits(s)
  {
    if WellFormedDigits(s) then Some(DigitsValue(s)) else None
  }

  /** Python's `int(s)` in base 10: surrounding whitespace, an optional sign,
      then a well-formed digit run; anything else raises `ValueError`
      (modelled as `None`). */
  function ParseInt(s: string): (r: Option<int>)
    ensures r.Some? ==> |Strip(s)| > 0 && IsDigit(Strip(s)[|Strip(s)| - 1])
    ensures r.Some? && r.value < 0 ==> Strip(s)[0] == '-'
    ensures r.Some? && !IsDigit(Strip(s)[0]) ==> Strip(s)[0] == '-' || Strip(s)[0] == '+'
  {
    var t := Strip(s);
    if |t| > 0 && (t[0] == '-' || t[0] == '+') then
      match ParseDigits(t[1..])
      case Some(v) => var n: int := if t[0] == '-' then -(v as int) else v; Some(n)
      case None => None
    else
      match ParseDigits(t)
      case Some(v) => var n: int := v; Some(n)
      case None => None
  }

  /** Decimal rendering of a natural number, most significant digit first. */
  function ShowNat(n: nat): (s: string)
    ensures |s| > 0
    ensures forall i :: 0 <= i < |s| ==> IsDigit(s[i])
  {
    if n < 10 then [DigitChar(n)] else ShowNat(n / 10) + [DigitChar(n % 10)]
  }

  /** Python's `str(i)` for an integer. */
  function Show(i: int): (s: string)
    ensures |s| > 0
    ensures forall k :: 0 <= k < |s| ==> IsDigit(s[k]) || (k == 0 && s[k] == '-')
  {
    if i < 0 then "-" + ShowNat(-i) else ShowNat(i)
  }

  lemma {:induction false} ShowNatValue(n: nat)
    ensures WellFormedDigits(ShowNat(n))
    ensures DigitsValue(ShowNat(n)) == n
  {
    var s := ShowNat(n);
    if n >= 10 {
      ShowNatValue(n / 10);
      assert s[..|s| - 1] == ShowNat(n / 10);
    }
  }

  /** Text that neither starts nor ends with whitespace is its own strip. */
  lemma StripBare(s: string)
    requires |s| > 0 ==> !IsSpace(s[0]) && !IsSpace(s[|s| - 1])
    ensures Strip(s) == s
  {
    assert LeadingSpaces(s) == 0;
    assert TrailingSpaces(s) == 0;
  }

  /** An unsigned digit run parses to its value. */
  lemma ParseUnsigned(s: string)
    requires WellFormedDigits(s)
    ensures ParseInt(s) == Some(DigitsValue(s))
  {
    StripBare(s);
  }

  /** A minus sign followed by a digit run parses to the negated value. */
  lemma ParseNegative(s: string)
    requires WellFormedDigits(s)
    ensures ParseInt("-" + s) == Some(-(DigitsValue(s) as int))
  {
    var t := "-" + s;
    assert t[|t| - 1] == s[|s| - 1];
    StripBare(t);
    assert t[1..] == s;
  }

  /** The rendering of a natural number parses back to it. */
  lemma ParseShowNat(n: nat)
    ensures ParseInt(ShowNat(n)) == Some(n)
  {
    ShowNatValue(n);
    ParseUnsigned(ShowNat(n));
  }

  /** A minus sign before the rendering of a natural number parses back to
      its negation. */
  lemma ParseShowNegative(n: nat)
    ensures ParseInt("-" + ShowNat(n)) == Some(-(n as int))
  {
    var digits := ShowNat(n);
    ShowNatValue(n);
    assert DigitsValue(digits) == n;
    ParseNegative(digits);
  }

  /** Rendering an integer and parsing it back with `int()` is the identity. */
  lemma ParseShow(i: int)
    ensures ParseInt(Show(i)) == Some(i)
  {
    if i < 0 {
      ParseShowNegative(-i);
    } else {
      ParseShowNat(i);
    }
  }

  /** Distinct integers render as distinct strings. */
  lemma ShowInjective(a: int, b: int)
    requires Show(a) == Show(b)
    ensures a == b
  {
    ParseShow(a);
    ParseShow(b);
  }

  lemma ShowExamples()
    ensures Show(0) == "0" && Show(-1) == "-1"
    ensures Show(1000) == "1000" && Show(5000) == "5000"
  {
    assert ShowNat(0) == "0" && ShowNat(1) == "1" && ShowNat(5) == "5";
    assert ShowNat(10) == ShowNat(1) + "0";
    assert ShowNat(100) == ShowNat(10) + "0";
    assert ShowNat(1000) == ShowNat(100) + "0";
    assert ShowNat(50) == ShowNat(5) + "0";
    assert ShowNat(500) == ShowNat(50) + "0";
    assert ShowNat(5000) == ShowNat(500) + "0";
  }

  /** Text with no digit, the empty line included, is not a number; an
      information separator is not whitespace to `int()`, while a space and a
      line feed are. */
  lemma ParseExamples()
    ensures ParseInt("") == None
    ensures ParseInt("abc") == None
    ensures ParseInt([28 as char, '5']) == None
    ensures ParseInt(" 5\n") == Some(5)
  {
    StripBare("");
    StripBare("abc");
    StripBare([28 as char, '5']);
    assert LeadingSpaces(" 5\n") == 1;
    assert TrailingSpaces("5\n") == 1;
    assert Strip(" 5\n") == "5";
    assert DigitsValue("5") == 5;
  }
}

=== FILE: dump.dfy ===
/** The dump engine: the rows `dump_channels`, `dump_members`, `dump_roles`
    and `dump_messages` hand to their CSV writers. */
module Dump {
  import opened Wrappers
  import opened Records
  import Selection

  // ---------------------------------------------------------------------
  // Cell conversions shared by the row builders

  /** An optional timestamp: epoch seconds when present, 0 when absent. */
  function OptionalEpoch(t: Option<Timestamp>, toEpoch: Timestamp -> int): (c: Cell)
    ensures t.None? ==> c == Int(0)
    ensures t.Some? ==> c == Int(toEpoch(t.value))
  {
    match t
    case Some(v) => Int(toEpoch(v))
    case None => Int(0)
  }

  /** An optional string written as itself, or as `None`. */
  function OptionalStr(s: Option<string>): Cell {
    match s
    case Some(v) => Str(v)
    case None => Null
  }

  /** `x if x else None` on an optional string: an empty string is falsy, so
      it is written as `None` too. */
  function NonEmptyStr(s: Option<string>): (c: Cell)
    ensures c != Str("")
    ensures c == Null <==> s.None? || s.value == ""
    ensures c != Null ==> c == Str(s.value)
  {
    match s
    case Some(v) => if v == "" then Null else Str(v)
    case None => Null
  }

  /** `part.attr if part else None` for an embed's footer, image, thumbnail,
      video or author: `None` when the part is empty, else its attribute. */
  function PartCell(p: Option<EmbedPart>): (c: Cell)
    ensures p.None? ==> c == Null
    ensures p.Some? ==> c == OptionalStr(p.value.attr)
  {
    match p
    case Some(part) => OptionalStr(part.attr)
    case None => Null
  }

  // ---------------------------------------------------------------------
  // channels.csv

  const ChannelColumns: seq<string> := ["id", "created_at", "name", "type"]

  /** The `type` column: one label per named channel class, `""` otherwise. */
  function TypeLabel(kind: ChannelKind): (name: string)
    ensures name in {"text", "voice", "category", "stage", ""}
    ensures name == "" <==> kind == Other
    ensures name == "text" <==> kind == TextChannel
    ensures name == "voice" <==> kind == VoiceChannel
    ensures name == "category" <==> kind == CategoryChannel
    ensures name == "stage" <==> kind == StageChannel
  {
    match kind
    case TextChannel => "text"
    case VoiceChannel => "voice"
    case CategoryChannel => "category"
    case StageChannel => "stage"
    case Other => ""
  }

  /** Different channel classes never share a label. */
  lemma TypeLabelInjective(a: ChannelKind, b: ChannelKind)
    requires TypeLabel(a) == TypeLabel(b)
    ensures a == b
  {
  }

  /** A channel's row: id, creation time, name and type label. */
  function ChannelRow(c: Channel, toEpoch: Timestamp -> int): (row: Row)
    ensures |row| == |ChannelColumns|
  {
    [Int(c.id), Int(toEpoch(c.createdAt)), Str(c.name), Str(TypeLabel(c.kind))]
  }

  /** The channel row read back by header name: every column holds the
      channel attribute it is named after. */
  lemma ChannelRowFields(c: Channel, toEpoch: Timestamp -> int)
    ensures ColumnHolds(ChannelColumns, ChannelRow(c, toEpoch), "id", Int(c.id))
    ensures ColumnHolds(ChannelColumns, ChannelRow(c, toEpoch), "created_at", Int(toEpoch(c.createdAt)))
    ensures ColumnHolds(ChannelColumns, ChannelRow(c, toEpoch), "name", Str(c.name))
    ensures ColumnHolds(ChannelColumns, ChannelRow(c, toEpoch), "type", Str(TypeLabel(c.kind)))
  {
    var row := ChannelRow(c, toEpoch);
    assert ChannelColumns[0] == "id" && row[0] == Int(c.id);
    assert ChannelColumns[1] == "created_at" && row[1] == Int(toEpoch(c.createdAt));
    assert ChannelColumns[2] == "name" && row[2] == Str(c.name);
    assert ChannelColumns[3] == "type" && row[3] == Str(TypeLabel(c.kind));
  }

  /** `dump_channels`: the header, then one row per fetched channel, in
      order, each as wide as the header and keyed by the channel id. */
  function DumpChannels(channels: seq<Channel>, toEpoch: Timestamp -> int): (rows: seq<Row>)
    ensures |rows| == |channels| + 1
    ensures rows[0] == Header(ChannelColumns)
    ensures forall i :: 0 <= i < |channels| ==>
      && |rows[i + 1]| == |ChannelColumns|
      && rows[i + 1][0] == Int(channels[i].id)
      && rows[i + 1][1] == Int(toEpoch(channels[i].createdAt))
      && rows[i + 1][2] == Str(channels[i].name)
      && rows[i + 1][3] == Str(TypeLabel(channels[i].kind))
  {
    [Header(ChannelColumns)] + seq(|channels|, i requires 0 <= i < |channels| => ChannelRow(channels[i], toEpoch))
  }

  /** A channel is written with type `text` exactly when the channel menu
      offers it for message export. */
  lemma TextRowsAreOffered(channels: seq<Channel>, toEpoch: Timestamp -> int, i: nat)
    requires i < |channels|
    ensures DumpChannels(channels, toEpoch)[i + 1][3] == Str("text") <==> channels[i] in Selection.TextChannels(channels)
  {
    var c := channels[i];
    assert DumpChannels(channels, toEpoch)[i + 1][3] == Str(TypeLabel(c.kind));
    assert c in channels;
    Selection.TextChannelsMembers(channels);
    assert c in Selection.TextChannels(channels) <==> c.kind == TextChannel;
  }

  // ---------------------------------------------------------------------
  // members.csv

  const MemberColumns: seq<string> := ["id", "joined_at", "name", "nick", "is_bot", "premium_since"]

  /** A member's row: id, join time, display name, nickname, bot flag and
      boost date. */
  function MemberRow(m: Member, toEpoch: Timestamp -> int): (row: Row)
    ensures |row| == |MemberColumns|
  {
    [Int(m.id), Int(toEpoch(m.joinedAt)), Str(m.display), OptionalStr(m.nick),
     Flag(m.bot), OptionalEpoch(m.premiumSince, toEpoch)]
  }

  /** The member row read back by header name. */
  lemma MemberRowFields(m: Member, toEpoch: Timestamp -> int)
    ensures ColumnHolds(MemberColumns, MemberRow(m, toEpoch), "id", Int(m.id))
    ensures ColumnHolds(MemberColumns, MemberRow(m, toEpoch), "joined_at", Int(toEpoch(m.joinedAt)))
    ensures ColumnHolds(MemberColumns, MemberRow(m, toEpoch), "name", Str(m.display))
    ensures ColumnHolds(MemberColumns, MemberRow(m, toEpoch), "nick", (if m.nick.Some? then Str(m.nick.value) else Null))
    ensures ColumnHolds(MemberColumns, MemberRow(m, toEpoch), "is_bot", Flag(m.bot))
    ensures ColumnHolds(MemberColumns, MemberRow(m, toEpoch), "premium_since", (if m.premiumSince.Some? then Int(toEpoch(m.premiumSince.value)) else Int(0)))
  {
    var row := MemberRow(m, toEpoch);
    assert MemberColumns[0] == "id" && row[0] == Int(m.id);
    assert MemberColumns[1] == "joined_at" && row[1] == Int(toEpoch(m.joinedAt));
    assert MemberColumns[2] == "name" && row[2] == Str(m.display);
    assert MemberColumns[3] == "nick" && row[3] == (if m.nick.Some? then Str(m.nick.value) else Null);
    assert MemberColumns[4] == "is_bot" && row[4] == Flag(m.bot);
    assert MemberColumns[5] == "premium_since" && row[5] == (if m.premiumSince.Some? then Int(toEpoch(m.premiumSince.value)) else Int(0));
  }

  /** `dump_members`: the header, then one row per member the fetch with
      `limit` yields, in fetch order. */
  function DumpMembers(members: seq<Member>, limit: nat, toEpoch: Timestamp -> int): (rows: seq<Row>)
    ensures |rows| == |Take(members, limit)| + 1 && |rows| <= limit + 1
    ensures limit >= |members| ==> |rows| == |members| + 1
    ensures rows[0] == Header(MemberColumns)
    ensures forall i :: 0 <= i < |rows| - 1 ==> rows[i + 1] == MemberRow(members[i], toEpoch)
  {
    var fetched := Take(members, limit);
    [Header(MemberColumns)] + seq(|fetched|, i requires 0 <= i < |fetched| => MemberRow(fetched[i], toEpoch))
  }

  /** Raising the member limit only appends rows: the export with a smaller
      limit is a prefix of the export with a larger one. */
  lemma DumpMembersPrefix(members: seq<Member>, small: nat, large: nat, toEpoch: Timestamp -> int)
    requires small <= large
    ensures DumpMembers(members, small, toEpoch) <= DumpMembers(members, large, toEpoch)
  {
    var a := DumpMembers(members, small, toEpoch);
    var b := DumpMembers(members, large, toEpoch);
    assert |a| <= |b|;
    forall i | 0 <= i < |a| ensures a[i] == b[i] {
      if i > 0 {
        assert a[i] == MemberRow(members[i - 1], toEpoch);
      }
    }
  }

  // ---------------------------------------------------------------------
  // roles.csv

  const RoleColumns: seq<string> :=
    ["id", "created_at", "name", "position", "permissions", "member_count", "is_mentionable", "color"]

  /** A role's row, with creation time and colour in native form. */
  function RoleRow(r: Role): (row: Row)
    ensures |row| == |RoleColumns|
  {
    [Int(r.id), Native(r.createdAt), Str(r.name), Int(r.position), Int(r.permissions),
     Int(r.memberCount), Flag(r.mentionable), Native(r.color)]
  }

  /** The role row read back by header name. */
  lemma RoleRowFields(r: Role)
    ensures ColumnHolds(RoleColumns, RoleRow(r), "id", Int(r.id))
    ensures ColumnHolds(RoleColumns, RoleRow(r), "created_at", Native(r.createdAt))
    ensures ColumnHolds(RoleColumns, RoleRow(r), "name", Str(r.name))
    ensures ColumnHolds(RoleColumns, RoleRow(r), "position", Int(r.position))
    ensures ColumnHolds(RoleColumns, RoleRow(r), "permissions", Int(r.permissions))
    ensures ColumnHolds(RoleColumns, RoleRow(r), "member_count", Int(r.memberCount))
    ensures ColumnHolds(RoleColumns, RoleRow(r), "is_mentionable", Flag(r.mentionable))
    ensures ColumnHolds(RoleColumns, RoleRow(r), "color", Native(r.color))
  {
    var row := RoleRow(r);
    assert RoleColumns[0] == "id" && row[0] == Int(r.id);
    assert RoleColumns[1] == "created_at" && row[1] == Native(r.createdAt);
    assert RoleColumns[2] == "name" && row[2] == Str(r.name);
    assert RoleColumns[3] == "position" && row[3] == Int(r.position);
    assert RoleColumns[4] == "permissions" && row[4] == Int(r.permissions);
    assert RoleColumns[5] == "member_count" && row[5] == Int(r.memberCount);
    assert RoleColumns[6] == "is_mentionable" && row[6] == Flag(r.mentionable);
    assert RoleColumns[7] == "color" && row[7] == Native(r.color);
  }

  /** `dump_roles`: the header, then one row per fetched role, in order. */
  function DumpRoles(roles: seq<Role>): (rows: seq<Row>)
    ensures |rows| == |roles| + 1
    ensures rows[0] == Header(RoleColumns)
    ensures forall i :: 0 <= i < |roles| ==> rows[i + 1] == RoleRow(roles[i])
  {
    var body := seq(|roles|, i requires 0 <= i < |roles| => RoleRow(roles[i]));
    assert forall i :: 0 <= i < |roles| ==> body[i] == RoleRow(roles[i]);
    [Header(RoleColumns)] + body
  }

  /** Each role's row depends on that role alone: exporting two role lists
      one after the other writes the rows of both, in order, under a single
      header. */
  lemma DumpRolesAppend(a: seq<Role>, b: seq<Role>)
    ensures DumpRoles(a + b) == DumpRoles(a) + DumpRoles(b)[1..]
  {
    var lhs := DumpRoles(a + b);
    var rhs := DumpRoles(a) + DumpRoles(b)[1..];
    assert |lhs| == |rhs|;
    forall i | 0 <= i < |lhs| ensures lhs[i] == rhs[i] {
      if 0 < i <= |a| {
        assert (a + b)[i - 1] == a[i - 1];
      } else if i > |a| {
        assert (a + b)[i - 1] == b[i - 1 - |a|];
        assert rhs[i] == DumpRoles(b)[i - |a|];
      }
    }
  }

  // ---------------------------------------------------------------------
  // messages.csv, attachments.csv, reactions.csv, embeds.csv

  /** The four writers `dump_messages` receives. */
  datatype Sink = MessageSink | AttachmentSink | ReactionSink | EmbedSink

  /** One `writerow` call: which writer, and the row. */
  datatype Write = Write(sink: Sink, row: Row)

  function Columns(s: Sink): seq<string> {
    match s
    case MessageSink => ["id", "author_id", "created_at", "modified_at", "content"]
    case AttachmentSink => ["message_id", "type", "size", "filename", "url", "is_spoiler"]
    case ReactionSink => ["message_id", "name", "reaction_count", "is_animated"]
    case EmbedSink => ["message_id", "title", "description", "footer", "image", "thumbnail", "video", "author", "field_count", "color"]
  }

  function MessageRow(m: Message, toEpoch: Timestamp -> int): (row: Row)
    ensures |row| == |Columns(MessageSink)| && row[0] == Int(m.id)
    ensures m.editedAt.None? ==> row[3] == Int(0)
  {
    [Int(m.id), Int(m.authorId), Int(toEpoch(m.createdAt)), OptionalEpoch(m.editedAt, toEpoch), Str(m.content)]
  }

  function AttachmentRow(id: int, a: Attachment): (row: Row)
    ensures |row| == |Columns(AttachmentSink)| && row[0] == Int(id)
  {
    [Int(id), OptionalStr(a.contentType), Int(a.size), Str(a.filename), Str(a.url), Flag(a.spoiler)]
  }

  /** The `name` column: a Unicode emoji is its own name, a custom emoji
      has a name attribute. */
  function EmojiName(e: Emoji): string {
    match e
    case Unicode(text) => text
    case Custom(name, _) => name
  }

  /** The `is_animated` column: only custom emoji can be animated. */
  function EmojiAnimated(e: Emoji): (animated: bool)
    ensures animated ==> e.Custom?
  {
    match e
    case Unicode(_) => false
    case Custom(_, animated) => animated
  }

  function ReactionRow(id: int, r: Reaction): (row: Row)
    ensures |row| == |Columns(ReactionSink)| && row[0] == Int(id)
    ensures r.emoji.Unicode? ==> row[1] == Str(r.emoji.text) && row[3] == Flag(false)
    ensures r.emoji.Custom? ==> row[1] == Str(r.emoji.name) && row[3] == Flag(r.emoji.animated)
  {
    [Int(id), Str(EmojiName(r.emoji)), Int(r.count), Flag(EmojiAnimated(r.emoji))]
  }

  function EmbedRow(id: int, e: Embed): (row: Row)
    ensures |row| == |Columns(EmbedSink)| && row[0] == Int(id)
    ensures row[1] != Str("") && row[2] != Str("")
    ensures row[1] == Null <==> e.title.None? || e.title.value == ""
    ensures row[2] == Null <==> e.description.None? || e.description.value == ""
    ensures forall k :: 3 <= k <= 7 ==> row[k].Null? || row[k].Str?
    ensures row[8] == Int(e.fieldCount)
    ensures row[9] == Null <==> e.color.None?
  {
    [Int(id), NonEmptyStr(e.title), NonEmptyStr(e.description),
     PartCell(e.footer), PartCell(e.image), PartCell(e.thumbnail), PartCell(e.video), PartCell(e.author),
     Int(e.fieldCount),
     match e.color case Some(c) => Native(c) case None => Null]
  }

  /** The message row read back by header name; a missing edit time is 0. */
  lemma MessageRowFields(m: Message, toEpoch: Timestamp -> int)
    ensures ColumnHolds(Columns(MessageSink), MessageRow(m, toEpoch), "id", Int(m.id))
    ensures ColumnHolds(Columns(MessageSink), MessageRow(m, toEpoch), "author_id", Int(m.authorId))
    ensures ColumnHolds(Columns(MessageSink), MessageRow(m, toEpoch), "created_at", Int(toEpoch(m.createdAt)))
    ensures ColumnHolds(Columns(MessageSink), MessageRow(m, toEpoch), "modified_at", (if m.editedAt.Some? then Int(toEpoch(m.editedAt.value)) else Int(0)))
    ensures ColumnHolds(Columns(MessageSink), MessageRow(m, toEpoch), "content", Str(m.content))
  {
    var row := MessageRow(m, toEpoch);
    var names := Columns(MessageSink);
    assert names[0] == "id" && row[0] == Int(m.id);
    assert names[1] == "author_id" && row[1] == Int(m.authorId);
    assert names[2] == "created_at" && row[2] == Int(toEpoch(m.createdAt));
    assert names[3] == "modified_at" && row[3] == (if m.editedAt.Some? then Int(toEpoch(m.editedAt.value)) else Int(0));
    assert names[4] == "content" && row[4] == Str(m.content);
  }

  /** The attachment row read back by header name: keyed by its message, then
      the attachment's own attributes. */
  lemma AttachmentRowFields(id: int, a: Attachment)
    ensures ColumnHolds(Columns(AttachmentSink), AttachmentRow(id, a), "message_id", Int(id))
    ensures ColumnHolds(Columns(AttachmentSink), AttachmentRow(id, a), "type", (if a.contentType.Some? then Str(a.contentType.value) else Null))
    ensures ColumnHolds(Columns(AttachmentSink), AttachmentRow(id, a), "size", Int(a.size))
    ensures ColumnHolds(Columns(AttachmentSink), AttachmentRow(id, a), "filename", Str(a.filename))
    ensures ColumnHolds(Columns(AttachmentSink), AttachmentRow(id, a), "url", Str(a.url))
    ensures ColumnHolds(Columns(AttachmentSink), AttachmentRow(id, a), "is_spoiler", Flag(a.spoiler))
  {
    var row := AttachmentRow(id, a);
    var names := Columns(AttachmentSink);
    assert names[0] == "message_id" && row[0] == Int(id);
    assert names[1] == "type" && row[1] == (if a.contentType.Some? then Str(a.contentType.value) else Null);
    assert names[2] == "size" && row[2] == Int(a.size);
    assert names[3] == "filename" && row[3] == Str(a.filename);
    assert names[4] == "url" && row[4] == Str(a.url);
    assert names[5] == "is_spoiler" && row[5] == Flag(a.spoiler);
  }

  /** The reaction row read back by header name. */
  lemma ReactionRowFields(id: int, r: Reaction)
    ensures ColumnHolds(Columns(ReactionSink), ReactionRow(id, r), "message_id", Int(id))
    ensures ColumnHolds(Columns(ReactionSink), ReactionRow(id, r), "name", Str(EmojiName(r.emoji)))
    ensures ColumnHolds(Columns(ReactionSink), ReactionRow(id, r), "reaction_count", Int(r.count))
    ensures ColumnHolds(Columns(ReactionSink), ReactionRow(id, r), "is_animated", Flag(EmojiAnimated(r.emoji)))
  {
    var row := ReactionRow(id, r);
    var names := Columns(ReactionSink);
    assert names[0] == "message_id" && row[0] == Int(id);
    assert names[1] == "name" && row[1] == Str(EmojiName(r.emoji));
    assert names[2] == "reaction_count" && row[2] == Int(r.count);
    assert names[3] == "is_animated" && row[3] == Flag(EmojiAnimated(r.emoji));
  }

  /** The embed row read back by header name: keyed by its message; title and
      description as `x if x else None`; the field count; the colour or `None`. */
  lemma EmbedRowFields(id: int, e: Embed)
    ensures ColumnHolds(Columns(EmbedSink), EmbedRow(id, e), "message_id", Int(id))
    ensures ColumnHolds(Columns(EmbedSink), EmbedRow(id, e), "title", NonEmptyStr(e.title))
    ensures ColumnHolds(Columns(EmbedSink), EmbedRow(id, e), "description", NonEmptyStr(e.description))
    ensures ColumnHolds(Columns(EmbedSink), EmbedRow(id, e), "field_count", Int(e.fieldCount))
    ensures ColumnHolds(Columns(EmbedSink), EmbedRow(id, e), "color", (if e.color.Some? then Native(e.color.value) else Null))
  {
    var row := EmbedRow(id, e);
    var names := Columns(EmbedSink);
    assert names[0] == "message_id" && row[0] == Int(id);
    assert names[1] == "title" && row[1] == NonEmptyStr(e.title);
    assert names[2] == "description" && row[2] == NonEmptyStr(e.description);
    assert names[8] == "field_count" && row[8] == Int(e.fieldCount);
    assert names[9] == "color" && row[9] == (if e.color.Some? then Native(e.color.value) else Null);
  }

  /** The embed's part columns read back by header name: each holds that
      part's attribute, or `None` when the part is empty. */
  lemma EmbedPartFields(id: int, e: Embed)
    ensures ColumnHolds(Columns(EmbedSink), EmbedRow(id, e), "footer", PartCell(e.footer))
    ensures ColumnHolds(Columns(EmbedSink), EmbedRow(id, e), "image", PartCell(e.image))
    ensures ColumnHolds(Columns(EmbedSink), EmbedRow(id, e), "thumbnail", PartCell(e.thumbnail))
    ensures ColumnHolds(Columns(EmbedSink), EmbedRow(id, e), "video", PartCell(e.video))
    ensures ColumnHolds(Columns(EmbedSink), EmbedRow(id, e), "author", PartCell(e.author))
  {
    var row := EmbedRow(id, e);
    var names := Columns(EmbedSink);
    assert names[3] == "footer" && row[3] == PartCell(e.footer);
    assert names[4] == "image" && row[4] == PartCell(e.image);
    assert names[5] == "thumbnail" && row[5] == PartCell(e.thumbnail);
    assert names[6] == "video" && row[6] == PartCell(e.video);
    assert names[7] == "author" && row[7] == PartCell(e.author);
  }

  /** Every header has distinct column names, so reading a row by column
      name is unambiguous. */
  lemma HeadersDistinct()
    ensures DistinctNames(ChannelColumns) && DistinctNames(MemberColumns) && DistinctNames(RoleColumns)
    ensures forall s: Sink :: DistinctNames(Columns(s))
  {
  }

  /** Rows all sent to one writer. */
  function Tag(s: Sink, rows: seq<Row>): (ws: seq<Write>)
    ensures |ws| == |rows|
    ensures forall k :: 0 <= k < |ws| ==> ws[k] == Write(s, rows[k])
  {
    seq(|rows|, k requires 0 <= k < |rows| => Write(s, rows[k]))
  }

  /** The rows a message sends to the attachment, reaction or embed writer:
      one per item of that kind, in order, each keyed by the message id. */
  function ItemRows(m: Message, s: Sink): (rows: seq<Row>)
    requires s != MessageSink
    ensures |rows| == ItemCount(m, s)
    ensures forall k :: 0 <= k < |rows| ==> |rows[k]| > 0 && rows[k][0] == Int(m.id)
  {
    match s
    case AttachmentSink => seq(|m.attachments|, k requires 0 <= k < |m.attachments| => AttachmentRow(m.id, m.attachments[k]))
    case ReactionSink => seq(|m.reactions|, k requires 0 <= k < |m.reactions| => ReactionRow(m.id, m.reactions[k]))
    case EmbedSink => seq(|m.embeds|, k requires 0 <= k < |m.embeds| => EmbedRow(m.id, m.embeds[k]))
  }

  /** A message's item rows are its items' rows, in item order. */
  lemma ItemRowsContent(m: Message, s: Sink)
    requires s != MessageSink
    ensures s == AttachmentSink ==>
      forall k :: 0 <= k < |m.attachments| ==> ItemRows(m, s)[k] == AttachmentRow(m.id, m.attachments[k])
    ensures s == ReactionSink ==>
      forall k :: 0 <= k < |m.reactions| ==> ItemRows(m, s)[k] == ReactionRow(m.id, m.reactions[k])
    ensures s == EmbedSink ==>
      forall k :: 0 <= k < |m.embeds| ==> ItemRows(m, s)[k] == EmbedRow(m.id, m.embeds[k])
  {
  }

  /** The writes for one message: its message row, then one row per
      attachment, per reaction and per embed, each keyed by the message id. */
  function MessageWrites(m: Message, toEpoch: Timestamp -> int): (ws: seq<Write>)
    ensures |ws| == 1 + |m.attachments| + |m.reactions| + |m.embeds|
    ensures ws[0] == Write(MessageSink, MessageRow(m, toEpoch))
  {
    [Write(MessageSink, MessageRow(m, toEpoch))]
    + Tag(AttachmentSink, ItemRows(m, AttachmentSink))
    + Tag(ReactionSink, ItemRows(m, ReactionSink))
    + Tag(EmbedSink, ItemRows(m, EmbedSink))
  }

  /** The writes for a message history, message by message. */
  function HistoryWrites(messages: seq<Message>, toEpoch: Timestamp -> int): seq<Write>
    decreases |messages|
  {
    if |messages| == 0 then []
    else MessageWrites(messages[0], toEpoch) + HistoryWrites(messages[1..], toEpoch)
  }

  /** The four header rows, one per writer, in the order they are written. */
  const HeaderWrites: seq<Write> := [
    Write(MessageSink, Header(Columns(MessageSink))),
    Write(AttachmentSink, Header(Columns(AttachmentSink))),
    Write(ReactionSink, Header(Columns(ReactionSink))),
    Write(EmbedSink, Header(Columns(EmbedSink)))]

  /** `dump_messages`: all four headers, then the writes of each message the
      history fetch with `limit` yields. */
  function DumpMessages(history: seq<Message>, limit: nat, toEpoch: Timestamp -> int): (ws: seq<Write>)
    ensures |ws| >= 4
    ensures forall k :: 0 <= k < 4 ==> ws[k].row == Header(Columns(ws[k].sink))
    ensures |Take(history, limit)| == 0 ==> |ws| == 4
    ensures |Take(history, limit)| > 0 ==> |ws| > 4 && ws[4] == Write(MessageSink, MessageRow(history[0], toEpoch))
  {
    var msgs := Take(history, limit);
    var body := HistoryWrites(msgs, toEpoch);
    assert |msgs| > 0 ==> body == MessageWrites(msgs[0], toEpoch) + HistoryWrites(msgs[1..], toEpoch);
    HeaderWrites + body
  }

  /** The rows one writer receives, in order. */
  function RowsOf(ws: seq<Write>, s: Sink): seq<Row>
    decreases |ws|
  {
    if |ws| == 0 then []
    else (if ws[0].sink == s then [ws[0].row] else []) + RowsOf(ws[1..], s)
  }

  /** How many items of the kind `s` writes a message carries. */
  function ItemCount(m: Message, s: Sink): nat {
    match s
    case MessageSink => 1
    case AttachmentSink => |m.attachments|
    case ReactionSink => |m.reactions|
    case EmbedSink => |m.embeds|
  }

  /** Summed over a history. */
  function TotalCount(messages: seq<Message>, s: Sink): nat
    decreases |messages|
  {
    if |messages| == 0 then 0 else ItemCount(messages[0], s) + TotalCount(messages[1..], s)
  }

  lemma {:induction false} RowsOfAppend(a: seq<Write>, b: seq<Write>, s: Sink)
    ensures RowsOf(a + b, s) == RowsOf(a, s) + RowsOf(b, s)
    decreases |a|
  {
    if |a| == 0 {
      assert a + b == b;
    } else {
      var first: seq<Row> := if a[0].sink == s then [a[0].row] else [];
      calc {
        RowsOf(a + b, s);
        { assert (a + b)[0] == a[0]; assert (a + b)[1..] == a[1..] + b; }
        first + RowsOf(a[1..] + b, s);
        { RowsOfAppend(a[1..], b, s); }
        first + (RowsOf(a[1..], s) + RowsOf(b, s));
        (first + RowsOf(a[1..], s)) + RowsOf(b, s);
      }
    }
  }

  lemma {:induction false} RowsOfTag(t: Sink, rows: seq<Row>, s: Sink)
    ensures RowsOf(Tag(t, rows), s) == if t == s then rows else []
    decreases |rows|
  {
    if |rows| > 0 {
      RowsOfTag(t, rows[1..], s);
      assert Tag(t, rows)[1..] == Tag(t, rows[1..]);
    }
  }

  /** One message sends exactly one row to the message writer and one row
      per attachment, reaction and embed to the matching writer; a message
      with none of a kind sends that writer nothing. */
  lemma MessageWritesRows(m: Message, toEpoch: Timestamp -> int, s: Sink)
    ensures RowsOf(MessageWrites(m, toEpoch), s) ==
      if s == MessageSink then [MessageRow(m, toEpoch)] else ItemRows(m, s)
  {
    var a := Tag(AttachmentSink, ItemRows(m, AttachmentSink));
    var r := Tag(ReactionSink, ItemRows(m, ReactionSink));
    var e := Tag(EmbedSink, ItemRows(m, EmbedSink));
    var head := [Write(MessageSink, MessageRow(m, toEpoch))];
    RowsOfAppend(head + a + r, e, s);
    RowsOfAppend(head + a, r, s);
    RowsOfAppend(head, a, s);
    RowsOfTag(AttachmentSink, ItemRows(m, AttachmentSink), s);
    RowsOfTag(ReactionSink, ItemRows(m, ReactionSink), s);
    RowsOfTag(EmbedSink, ItemRows(m, EmbedSink), s);
    assert RowsOf(head, s) == if s == MessageSink then [MessageRow(m, toEpoch)] else [];
    var rows := RowsOf(MessageWrites(m, toEpoch), s);
    assert rows == RowsOf(head, s) + RowsOf(a, s) + RowsOf(r, s) + RowsOf(e, s);
    match s
    case MessageSink => assert rows == [MessageRow(m, toEpoch)] + [] + [] + [];
    case AttachmentSink => assert rows == [] + ItemRows(m, s) + [] + [];
    case ReactionSink => assert rows == [] + [] + ItemRows(m, s) + [];
    case EmbedSink => assert rows == [] + [] + [] + ItemRows(m, s);
  }

  lemma MessageWritesCount(m: Message, toEpoch: Timestamp -> int, s: Sink)
    ensures |RowsOf(MessageWrites(m, toEpoch), s)| == ItemCount(m, s)
  {
    MessageWritesRows(m, toEpoch, s);
  }

  /** Every write for a message carries that message's id in its first
      column, and only the first write goes to the message writer. */
  lemma MessageWritesKeyed(m: Message, toEpoch: Timestamp -> int)
    ensures |MessageWrites(m, toEpoch)| > 0
    ensures MessageWrites(m, toEpoch)[0] == Write(MessageSink, MessageRow(m, toEpoch))
    ensures forall k :: 0 <= k < |MessageWrites(m, toEpoch)| ==>
      |MessageWrites(m, toEpoch)[k].row| > 0 && MessageWrites(m, toEpoch)[k].row[0] == Int(m.id)
    ensures forall k :: 0 < k < |MessageWrites(m, toEpoch)| ==> MessageWrites(m, toEpoch)[k].sink != MessageSink
  {
  }

  lemma {:induction false} HistoryCount(messages: seq<Message>, toEpoch: Timestamp -> int, s: Sink)
    ensures |RowsOf(HistoryWrites(messages, toEpoch), s)| == TotalCount(messages, s)
    decreases |messages|
  {
    if |messages| > 0 {
      HistoryCount(messages[1..], toEpoch, s);
      RowsOfAppend(MessageWrites(messages[0], toEpoch), HistoryWrites(messages[1..], toEpoch), s);
      MessageWritesCount(messages[0], toEpoch, s);
    }
  }

  /** Every attachment, reaction and embed write refers to a message whose
      row was already written to the message writer. */
  lemma {:induction false} HistoryForeignKeys(messages: seq<Message>, toEpoch: Timestamp -> int)
    ensures forall k :: 0 <= k < |HistoryWrites(messages, toEpoch)| ==>
      var ws := HistoryWrites(messages, toEpoch);
      |ws[k].row| > 0 &&
      (ws[k].sink != MessageSink ==>
        exists j :: 0 <= j < k && ws[j].sink == MessageSink && |ws[j].row| > 0 && ws[j].row[0] == ws[k].row[0])
    decreases |messages|
  {
    if |messages| > 0 {
      var first := MessageWrites(messages[0], toEpoch);
      var rest := HistoryWrites(messages[1..], toEpoch);
      var ws := HistoryWrites(messages, toEpoch);
      assert ws == first + rest;
      MessageWritesKeyed(messages[0], toEpoch);
      HistoryForeignKeys(messages[1..], toEpoch);
      forall k | 0 <= k < |ws|
        ensures |ws[k].row| > 0
        ensures ws[k].sink != MessageSink ==>
          exists j :: 0 <= j < k && ws[j].sink == MessageSink && |ws[j].row| > 0 && ws[j].row[0] == ws[k].row[0]
      {
        if k < |first| {
          assert ws[k] == first[k];
          if ws[k].sink != MessageSink {
            assert ws[0] == first[0];
          }
        } else {
          var k' := k - |first|;
          assert ws[k] == rest[k'];
          if ws[k].sink != MessageSink {
            var j' :| 0 <= j' < k' && rest[j'].sink == MessageSink && |rest[j'].row| > 0 && rest[j'].row[0] == rest[k'].row[0];
            assert ws[j' + |first|] == rest[j'];
          }
        }
      }
    }
  }

  /** The message writer receives one row per message, in history order. */
  lemma {:induction false} HistoryMessageRows(messages: seq<Message>, toEpoch: Timestamp -> int)
    ensures var rows := RowsOf(HistoryWrites(messages, toEpoch), MessageSink);
      |rows| == |messages| && forall i :: 0 <= i < |messages| ==> rows[i] == MessageRow(messages[i], toEpoch)
    decreases |messages|
  {
    if |messages| > 0 {
      var first := MessageWrites(messages[0], toEpoch);
      HistoryMessageRows(messages[1..], toEpoch);
      RowsOfAppend(first, HistoryWrites(messages[1..], toEpoch), MessageSink);
      MessageWritesCount(messages[0], toEpoch, MessageSink);
      MessageWritesKeyed(messages[0], toEpoch);
      assert RowsOf(first, MessageSink) == [MessageRow(messages[0], toEpoch)] by {
        RowsOfAppend([first[0]], first[1..], MessageSink);
        assert first == [first[0]] + first[1..];
      }
    }
  }

  /** Reference for an item writer's output over a history: for each
      message in order, the rows of its items of that kind, in order. */
  function ItemRowsOf(messages: seq<Message>, s: Sink): seq<Row>
    requires s != MessageSink
    decreases |messages|
  {
    if |messages| == 0 then [] else ItemRows(messages[0], s) + ItemRowsOf(messages[1..], s)
  }

  /** The attachment, reaction and embed writers each receive exactly the
      rows of their items, message by message and item by item. */
  lemma {:induction false} HistoryItemRows(messages: seq<Message>, toEpoch: Timestamp -> int, s: Sink)
    requires s != MessageSink
    ensures RowsOf(HistoryWrites(messages, toEpoch), s) == ItemRowsOf(messages, s)
    decreases |messages|
  {
    if |messages| > 0 {
      HistoryItemRows(messages[1..], toEpoch, s);
      RowsOfAppend(MessageWrites(messages[0], toEpoch), HistoryWrites(messages[1..], toEpoch), s);
      MessageWritesRows(messages[0], toEpoch, s);
    }
  }

  /** Each of the four header writes goes to a different writer, so each
      writer receives exactly its own header from them. */
  lemma HeaderRows(s: Sink)
    ensures RowsOf(HeaderWrites, s) == [Header(Columns(s))]
  {
    // RowsOf consumes the four writes one at a time; name the suffixes it visits
    var w := HeaderWrites;
    assert w[1..][1..][1..] == [w[3]];
    assert w[1..][1..][1..][1..] == [];
  }

  /** `dump_messages` writes the four headers before any data row; each
      writer's header is its first row, and after it the writer receives one
      row per message (message writer) or per item of its kind (the others). */
  lemma DumpMessagesCounts(history: seq<Message>, limit: nat, toEpoch: Timestamp -> int, s: Sink)
    ensures var ws := DumpMessages(history, limit, toEpoch);
      && |ws| >= 4
      && ws[..4] == HeaderWrites
      && |RowsOf(ws, s)| == 1 + TotalCount(Take(history, limit), s)
      && RowsOf(ws, s)[0] == Header(Columns(s))
  {
    var msgs := Take(history, limit);
    var body := HistoryWrites(msgs, toEpoch);
    var ws := DumpMessages(history, limit, toEpoch);
    assert ws == HeaderWrites + body;
    HistoryCount(msgs, toEpoch, s);
    RowsOfAppend(HeaderWrites, body, s);
    HeaderRows(s);
  }

  /** Every data row `dump_messages` writes is keyed by an integer. */
  lemma DumpMessagesKeyed(history: seq<Message>, limit: nat, toEpoch: Timestamp -> int)
    ensures var ws := DumpMessages(history, limit, toEpoch);
      forall k :: 4 <= k < |ws| ==> |ws[k].row| > 0 && ws[k].row[0].Int?
  {
    var msgs := Take(history, limit);
    var body := HistoryWrites(msgs, toEpoch);
    var ws := DumpMessages(history, limit, toEpoch);
    assert ws == HeaderWrites + body;
    HistoryRowsKeyed(msgs, toEpoch);
    forall k | 4 <= k < |ws|
      ensures |ws[k].row| > 0 && ws[k].row[0].Int?
    {
      assert ws[k] == body[k - 4];
      assert body[k - 4] in body;
    }
  }

  /** From position `from` on, every attachment, reaction or embed write
      is keyed and comes after a message write (also at or after `from`)
      with the same key. */
  ghost predicate ForeignKeysFrom(ws: seq<Write>, from: nat) {
    forall k :: from <= k < |ws| && ws[k].sink != MessageSink ==>
      |ws[k].row| > 0 &&
      exists j :: from <= j < k && ws[j].sink == MessageSink && |ws[j].row| > 0
                  && ws[j].row[0] == ws[k].row[0]
  }

  /** Writes placed before a trace keep its foreign keys in force. */
  lemma ShiftForeignKeys(prefix: seq<Write>, body: seq<Write>)
    requires ForeignKeysFrom(body, 0)
    ensures ForeignKeysFrom(prefix + body, |prefix|)
  {
    var ws := prefix + body;
    var n := |prefix|;
    forall k | n <= k < |ws| && ws[k].sink != MessageSink
      ensures |ws[k].row| > 0
      ensures exists j :: n <= j < k && ws[j].sink == MessageSink && |ws[j].row| > 0 && ws[j].row[0] == ws[k].row[0]
    {
      assert ws[k] == body[k - n];
      var j' :| 0 <= j' < k - n && body[j'].sink == MessageSink && |body[j'].row| > 0 && body[j'].row[0] == body[k - n].row[0];
      assert ws[j' + n] == body[j'];
    }
  }

  /** An attachment, reaction or embed row of `dump_messages` comes only
      after the message row with the same key. */
  lemma DumpMessagesForeignKeys(history: seq<Message>, limit: nat, toEpoch: Timestamp -> int)
    ensures ForeignKeysFrom(DumpMessages(history, limit, toEpoch), 4)
  {
    var msgs := Take(history, limit);
    HistoryForeignKeys(msgs, toEpoch);
    ShiftForeignKeys(HeaderWrites, HistoryWrites(msgs, toEpoch));
  }

  /** Every data row of a history begins with an integer key. */
  lemma {:induction false} HistoryRowsKeyed(messages: seq<Message>, toEpoch: Timestamp -> int)
    ensures forall w :: w in HistoryWrites(messages, toEpoch) ==> |w.row| > 0 && w.row[0].Int?
    decreases |messages|
  {
    if |messages| > 0 {
      MessageWritesKeyed(messages[0], toEpoch);
      HistoryRowsKeyed(messages[1..], toEpoch);
      var first := MessageWrites(messages[0], toEpoch);
      forall w | w in first ensures |w.row| > 0 && w.row[0].Int? {
        var k :| 0 <= k < |first| && first[k] == w;
      }
    }
  }
}

=== FILE: prompt.dfy ===
/** The prompt layer: the re-asking text prompt with an optional checker, the
    positive-limit prompts built on it, and the yes/no wrapper over a menu. */
module Prompt {
  import opened Wrappers
  import opened Decimal

  /** What a checker makes of a candidate value: accept it, reject it (the
      prompt asks again), or raise an exception that escapes the prompt. */
  datatype Verdict = Accept | Reject | Raise

  datatype Checker = NoChecker | Check(verdict: string -> Verdict)

  /** The result of an interactive step. `Raised` is an exception a checker
      (or an index) lets escape. `Unanswered` is the end of the operator's
      input before a value was accepted: `input()` then raises `EOFError`,
      which the prompt does not catch either, so it too ends the program. */
  datatype Outcome<+T> = Done(value: T) | Raised | Unanswered

  /** `input(question) or default`: an empty line stands for the default. */
  function Fill(line: string, default: string): (v: string)
    ensures v == line || v == default
    ensures line != "" ==> v == line
    ensures v == "" <==> line == "" && default == ""
  {
    if line == "" then default else line
  }

  /** The checker turned down every one of the first `n` lines. */
  ghost predicate AllRejected(lines: seq<string>, default: string, f: string -> Verdict, n: nat)
    requires n <= |lines|
  {
    forall j :: 0 <= j < n ==> f(Fill(lines[j], default)) == Reject
  }

  /** `input_prompt`: read a line, substitute the default for an empty one,
      and return it when there is no checker or the checker accepts it;
      otherwise read the next line. */
  function InputPrompt(lines: seq<string>, default: string, checker: Checker): (r: Outcome<string>)
    ensures checker.NoChecker? ==> r == if |lines| == 0 then Unanswered else Done(Fill(lines[0], default))
    ensures r.Done? && checker.Check? ==> checker.verdict(r.value) == Accept
    ensures r.Done? ==> exists i :: 0 <= i < |lines| && r.value == Fill(lines[i], default)
    ensures checker.Check? && r.Raised? ==> exists i :: 0 <= i < |lines| && checker.verdict(Fill(lines[i], default)) == Raise
    decreases |lines|
  {
    if |lines| == 0 then Unanswered
    else
      var v := Fill(lines[0], default);
      match checker
      case NoChecker => Done(v)
      case Check(f) =>
        match f(v)
        case Accept => Done(v)
        case Raise => Raised
        case Reject =>
          var r := InputPrompt(lines[1..], default, checker);
          assert r.Done? ==> exists i :: 1 <= i < |lines| && r.value == Fill(lines[i], default) by {
            if r.Done? {
              var i :| 0 <= i < |lines[1..]| && r.value == Fill(lines[1..][i], default);
              assert lines[1..][i] == lines[i + 1];
            }
          }
          assert r.Raised? ==> exists i :: 1 <= i < |lines| && f(Fill(lines[i], default)) == Raise by {
            if r.Raised? {
              var i :| 0 <= i < |lines[1..]| && f(Fill(lines[1..][i], default)) == Raise;
              assert lines[1..][i] == lines[i + 1];
            }
          }
          r
  }

  /** With a checker, the prompt is unanswered exactly when the checker
      rejected every line. */
  lemma {:induction false} InputPromptUnanswered(lines: seq<string>, default: string, f: string -> Verdict)
    ensures InputPrompt(lines, default, Check(f)) == Unanswered <==> AllRejected(lines, default, f, |lines|)
    decreases |lines|
  {
    if |lines| > 0 && f(Fill(lines[0], default)) == Reject {
      var rest := lines[1..];
      InputPromptUnanswered(rest, default, f);
      assert forall j :: 0 <= j < |rest| ==> rest[j] == lines[j + 1];
    }
  }

  /** With a checker, the prompt stops at the first line the checker does
      not reject: it returns that value if accepted and raises if the
      checker raised. */
  lemma {:induction false} InputPromptFirstDecision(lines: seq<string>, default: string, f: string -> Verdict, i: nat)
    requires i < |lines| && AllRejected(lines, default, f, i)
    ensures f(Fill(lines[i], default)) == Accept ==> InputPrompt(lines, default, Check(f)) == Done(Fill(lines[i], default))
    ensures f(Fill(lines[i], default)) == Raise ==> InputPrompt(lines, default, Check(f)) == Raised
    ensures f(Fill(lines[i], default)) == Reject ==>
      InputPrompt(lines, default, Check(f)) == InputPrompt(lines[i + 1..], default, Check(f))
    decreases i
  {
    if i > 0 {
      var rest := lines[1..];
      assert f(Fill(lines[0], default)) == Reject;
      assert AllRejected(rest, default, f, i - 1) by {
        assert forall j :: 0 <= j < i - 1 ==> rest[j] == lines[j + 1];
      }
      InputPromptFirstDecision(rest, default, f, i - 1);
      assert rest[i - 1] == lines[i];
      assert rest[i..] == lines[i + 1..];
    }
  }

  /** `InputPromptFirstDecision` for every line at once: whichever line is
      the first the checker does not reject decides the outcome. */
  lemma {:induction false} InputPromptDecidedAt(lines: seq<string>, default: string, f: string -> Verdict)
    ensures forall i :: 0 <= i < |lines| && AllRejected(lines, default, f, i) ==>
      && (f(Fill(lines[i], default)) == Accept ==> InputPrompt(lines, default, Check(f)) == Done(Fill(lines[i], default)))
      && (f(Fill(lines[i], default)) == Raise ==> InputPrompt(lines, default, Check(f)) == Raised)
  {
    forall i | 0 <= i < |lines| && AllRejected(lines, default, f, i)
      ensures f(Fill(lines[i], default)) == Accept ==> InputPrompt(lines, default, Check(f)) == Done(Fill(lines[i], default))
      ensures f(Fill(lines[i], default)) == Raise ==> InputPrompt(lines, default, Check(f)) == Raised
    {
      InputPromptFirstDecision(lines, default, f, i);
    }
  }

  /** The checker of `request_max_members` and `request_max_messages`:
      accept exactly the strings `int()` parses to a value above 0. */
  function LimitVerdict(s: string): (v: Verdict)
    ensures v != Raise
    ensures v == Accept <==> ParseInt(s).Some? && ParseInt(s).value > 0
  {
    match ParseInt(s)
    case Some(n) => if n > 0 then Accept else Reject
    case None => Reject
  }

  /** The default both limit prompts offer. */
  const DefaultLimit: string := "1000"

  /** `request_max_members` / `request_max_messages`: prompt with default
      1000 until a positive integer is entered, then convert it. */
  function RequestLimit(lines: seq<string>): (r: Outcome<int>)
    ensures !r.Raised?
    ensures r.Done? ==> r.value >= 1
    ensures r.Done? ==> exists i :: 0 <= i < |lines| && ParseInt(Fill(lines[i], DefaultLimit)) == Some(r.value)
    ensures forall i {:trigger AllRejected(lines, DefaultLimit, LimitVerdict, i)} ::
                        0 <= i < |lines| && AllRejected(lines, DefaultLimit, LimitVerdict, i)
                        && LimitVerdict(Fill(lines[i], DefaultLimit)) == Accept ==>
                          r == Done(ParseInt(Fill(lines[i], DefaultLimit)).value)
  {
    InputPromptDecidedAt(lines, DefaultLimit, LimitVerdict);
    match InputPrompt(lines, DefaultLimit, Check(LimitVerdict))
    case Done(v) => Done(ParseInt(v).value)
    case Raised => assert false; Unanswered
    case Unanswered => Unanswered
  }

  /** An empty first answer takes the default: the limit is 1000. */
  lemma RequestLimitDefault(lines: seq<string>)
    requires |lines| > 0 && lines[0] == ""
    ensures RequestLimit(lines) == Done(1000)
  {
    DefaultAccepted();
  }

  /** The limit prompt stays unanswered exactly when every line was rejected. */
  lemma RequestLimitUnanswered(lines: seq<string>)
    ensures RequestLimit(lines).Unanswered? <==> AllRejected(lines, DefaultLimit, LimitVerdict, |lines|)
  {
    InputPromptUnanswered(lines, DefaultLimit, LimitVerdict);
  }

  lemma DefaultAccepted()
    ensures ParseInt(DefaultLimit) == Some(1000)
  {
    ParseShow(1000);
    ShowExamples();
  }

  /** On decimal renderings the limit checker accepts exactly the positive
      numbers. */
  lemma LimitAcceptsPositive(n: int)
    ensures LimitVerdict(Show(n)) == Accept <==> n > 0
  {
    ParseShow(n);
  }

  /** Inputs the limit prompts must turn down or take. */
  lemma LimitExamples()
    ensures LimitVerdict("0") == Reject
    ensures LimitVerdict("-1") == Reject
    ensures LimitVerdict("abc") == Reject
    ensures LimitVerdict("") == Reject
    ensures LimitVerdict("5000") == Accept && ParseInt("5000") == Some(5000)
  {
    ShowExamples();
    LimitAcceptsPositive(0);
    LimitAcceptsPositive(-1);
    LimitAcceptsPositive(5000);
    ParseShow(5000);
    ParseExamples();
  }

  /** A Python value as `yesno_prompt` compares it: an integer, `None`, or a
      coroutine object that has not been awaited, known by its identity. */
  datatype PyValue = PyInt(i: int) | PyNone | PyCoroutine(identity: nat)

  /** Python `==` on these values: integers by value, `None` with itself,
      coroutine objects by identity; values of different kinds differ. */
  function PyEquals(a: PyValue, b: PyValue): (eq: bool)
    ensures eq ==> a.PyInt? == b.PyInt? && a.PyNone? == b.PyNone?
    ensures a.PyInt? && b.PyInt? ==> (eq <==> a.i == b.i)
  {
    match (a, b)
    case (PyInt(x), PyInt(y)) => x == y
    case (PyNone, PyNone) => true
    case (PyCoroutine(p), PyCoroutine(q)) => p == q
    case _ => false
  }

  /** The awaited result of `option_prompt`: the chosen index, or `None`
      when the menu is dismissed. */
  function MenuResult(choice: Option<nat>): PyValue {
    match choice
    case Some(i) => PyInt(i)
    case None => PyNone
  }

  /** `yesno_prompt` as written: `option_prompt(...)` is called without
      `await`, so the menu is never shown and the fresh coroutine object
      (with identity `coroutine`) is what gets compared with 0. No menu
      answer exists to pass in. */
  function YesNoAsWritten(coroutine: nat): (yes: bool)
    ensures !yes
  {
    PyEquals(PyCoroutine(coroutine), PyInt(0))
  }

  /** The defect: where the awaited prompt answers yes to "Yes", the prompt
      as written answers no, whatever coroutine object it compares. */
  lemma YesNoAsWrittenIgnoresYes()
    ensures forall coroutine: nat :: YesNoAsWritten(coroutine) != YesNo(Some(0))
  {
  }

  /** `yesno_prompt` with the menu result awaited: true exactly when the
      first option, "Yes", is chosen. */
  function YesNo(choice: Option<nat>): (yes: bool)
    ensures yes <==> choice == Some(0)
  {
    PyEquals(MenuResult(choice), PyInt(0))
  }
}

=== FILE: records.dfy ===
/** The API objects the exporter reads, as plain immutable records, and the
    cells of the CSV rows it writes. */
module Records {
  import opened Wrappers

  /** A point in time as the client library delivers it. Its conversion to
      epoch seconds (`int(time.mktime(t.timetuple()))`) depends on the local
      time zone and is passed to the dump routines as a function. */
  type Timestamp(==, !new)

  /** A library value written in its own printed form (a role's creation time
      and colour, an embed's colour). */
  type NativeValue(==, !new)

  datatype Guild = Guild(id: int, name: string)

  /** The concrete channel class the library returns; `Other` covers every
      class the exporter does not name (forum, news thread, ...). */
  datatype ChannelKind = TextChannel | VoiceChannel | CategoryChannel | StageChannel | Other

  datatype Channel = Channel(id: int, createdAt: Timestamp, name: string, kind: ChannelKind)

  /** `display` is `str(member)`; `nick` and `premiumSince` may be absent. */
  datatype Member = Member(
    id: int, joinedAt: Timestamp, display: string, nick: Option<string>,
    bot: bool, premiumSince: Option<Timestamp>)

  /** `memberCount` is `len(role.members)`; `permissions` is the bitmask value. */
  datatype Role = Role(
    id: int, createdAt: NativeValue, name: string, position: int,
    permissions: int, memberCount: nat, mentionable: bool, color: NativeValue)

  /** `spoiler` is the library's `is_spoiler()` answer. */
  datatype Attachment = Attachment(
    contentType: Option<string>, size: nat, filename: string, url: string, spoiler: bool)

  /** A reaction's emoji is either a plain Unicode string or a custom emoji
      object with a name and an animation flag. */
  datatype Emoji = Unicode(text: string) | Custom(name: string, animated: bool)

  datatype Reaction = Reaction(emoji: Emoji, count: nat)

  /** A nested embed object (footer, image, thumbnail, video, author).
      `attr` is the one attribute the exporter reads from it (text, url or
      name), which the library reports as absent when it was not set. */
  datatype EmbedPart = EmbedPart(attr: Option<string>)

  /** An embed. A part is `None` when the library's proxy object is empty
      (and so falsy); `fieldCount` is `len(embed.fields)`. */
  datatype Embed = Embed(
    title: Option<string>, description: Option<string>,
    footer: Option<EmbedPart>, image: Option<EmbedPart>, thumbnail: Option<EmbedPart>,
    video: Option<EmbedPart>, author: Option<EmbedPart>,
    fieldCount: nat, color: Option<NativeValue>)

  datatype Message = Message(
    id: int, authorId: int, createdAt: Timestamp, editedAt: Option<Timestamp>,
    content: string, attachments: seq<Attachment>, reactions: seq<Reaction>,
    embeds: seq<Embed>)

  /** One value handed to the CSV writer: an integer, a string, a boolean,
      Python's `None`, or a library object written in its printed form. */
  datatype Cell = Int(i: int) | Str(s: string) | Flag(b: bool) | Null | Native(v: NativeValue)

  type Row = seq<Cell>

  /** A header row: the column names, in order. */
  function Header(names: seq<string>): (r: Row)
    ensures |r| == |names|
    ensures forall k :: 0 <= k < |r| ==> r[k] == Str(names[k])
  {
    seq(|names|, k requires 0 <= k < |names| => Str(names[k]))
  }

  /** No two columns of a header share a name. */
  predicate DistinctNames(names: seq<string>) {
    forall i, j :: 0 <= i < j < |names| ==> names[i] != names[j]
  }

  /** The column of `row` headed `name` holds `v`, as a reader that looks
      columns up by header name finds it. */
  predicate ColumnHolds(names: seq<string>, row: Row, name: string, v: Cell) {
    exists k :: 0 <= k < |names| && k < |row| && names[k] == name && row[k] == v
  }

  /** Under a header with distinct names, a column name fixes one cell. */
  lemma ColumnHoldsUnique(names: seq<string>, row: Row, name: string, v: Cell, w: Cell)
    requires DistinctNames(names)
    requires ColumnHolds(names, row, name, v) && ColumnHolds(names, row, name, w)
    ensures v == w
  {
    var k :| 0 <= k < |names| && k < |row| && names[k] == name && row[k] == v;
    var l :| 0 <= l < |names| && l < |row| && names[l] == name && row[l] == w;
    assert k == l;
  }

  /** What a paginated fetch with `limit` yields: the first `limit` items. */
  function Take<T>(items: seq<T>, limit: nat): (r: seq<T>)
    ensures |r| <= limit && |r| <= |items|
    ensures |r| == limit || r == items
    ensures forall k :: 0 <= k < |r| ==> r[k] == items[k]
  {
    if |items| <= limit then items else items[..limit]
  }
}

=== FILE: selection.dfy ===
/** Target selection: which guild to export (`request_guild`) and which text
    channels to export message history for (`request_channels`). */
module Selection {
  import opened Wrappers
  import opened Decimal
  import opened Records
  import opened Prompt

  /** How the guild is chosen. */
  datatype Mode = ManualEntry | PickList | AskUser

  /** `fetch_guilds(limit=51)`: one more than the largest list offered. */
  const GuildFetchLimit: nat := 51

  /** The mode follows from the number of fetched guilds alone: more than 50
      forces manual entry, at most 10 shows the list directly, and anything
      in between asks the operator. */
  function SelectionMode(n: nat): (m: Mode)
    ensures m == ManualEntry <==> n > 50
    ensures m == PickList <==> n <= 10
    ensures m == AskUser <==> 11 <= n <= 50
  {
    if n > 50 then ManualEntry else if n <= 10 then PickList else AskUser
  }

  /** A menu label `"<id> (<text>)"`. */
  function Label(id: int, text: string): (entry: string)
    ensures |entry| > |Show(id)| + 2 && entry[..|Show(id)|] == Show(id)
    ensures entry[|Show(id)|] == ' ' && entry[|Show(id)| + 1] == '(' && entry[|entry| - 1] == ')'
    ensures entry[|Show(id)| + 2 .. |entry| - 1] == text
  {
    Show(id) + " (" + text + ")"
  }

  /** The text before the first space. */
  function FirstWord(s: string): (w: string)
    ensures |w| <= |s| && w == s[..|w|]
  {
    if |s| == 0 || s[0] == ' ' then "" else [s[0]] + FirstWord(s[1..])
  }

  /** The id a menu label starts with. */
  function LabelId(text: string): (id: Option<int>)
    ensures text == "" ==> id == None
  {
    ParseInt(FirstWord(text))
  }

  lemma {:induction false} FirstWordOf(w: string, rest: string)
    requires forall k :: 0 <= k < |w| ==> w[k] != ' '
    ensures FirstWord(w + " " + rest) == w
    decreases |w|
  {
    if |w| > 0 {
      FirstWordOf(w[1..], rest);
      assert (w + " " + rest)[1..] == w[1..] + " " + rest;
    }
  }

  /** Every label names its id first, so it identifies the entity it lists. */
  lemma LabelRoundTrip(id: int, text: string)
    ensures LabelId(Label(id, text)) == Some(id)
  {
    assert Label(id, text) == Show(id) + " " + ("(" + text + ")");
    FirstWordOf(Show(id), "(" + text + ")");
    ParseShow(id);
  }

  lemma LabelRoundTripAll()
    ensures forall id, text :: LabelId(Label(id, text)) == Some(id)
  {
    forall id, text ensures LabelId(Label(id, text)) == Some(id) {
      LabelRoundTrip(id, text);
    }
  }

  /** The options of the guild menu: one `"<id> (<name>)"` per fetched guild,
      in fetch order. */
  function GuildOptions(guilds: seq<Guild>): (labels: seq<string>)
    ensures |labels| == |guilds|
    ensures forall i :: 0 <= i < |guilds| ==> LabelId(labels[i]) == Some(guilds[i].id)
    ensures forall i :: 0 <= i < |guilds| ==> labels[i] == Label(guilds[i].id, guilds[i].name)
  {
    LabelRoundTripAll();
    seq(|guilds|, i requires 0 <= i < |guilds| => Label(guilds[i].id, guilds[i].name))
  }

  /** `guilds[choice]`: a dismissed menu (`None`) or an index past the end
      raises. */
  function PickFromList(guilds: seq<Guild>, choice: Option<nat>): (r: Outcome<Guild>)
    ensures !r.Unanswered?
    ensures r.Done? <==> choice.Some? && choice.value < |guilds|
    ensures r.Done? ==> r.value == guilds[choice.value]
  {
    match choice
    case Some(i) => if i < |guilds| then Done(guilds[i]) else Raised
    case None => Raised
  }

  /** What `client.fetch_guild(id)` yields: the guild, a `Forbidden` error
      (the bot is not in it), or any other HTTP error (an unknown id). */
  datatype GuildFetch = Found(guild: Guild) | Forbidden | Failed

  /** The manual-entry checker: a non-numeric id and a forbidden guild are
      rejected; any other fetch error escapes. */
  function GuildVerdict(fetch: int -> GuildFetch, s: string): (v: Verdict)
    ensures v == Accept <==> ParseInt(s).Some? && fetch(ParseInt(s).value).Found?
    ensures v == Raise <==> ParseInt(s).Some? && fetch(ParseInt(s).value).Failed?
  {
    match ParseInt(s)
    case None => Reject
    case Some(id) =>
      match fetch(id)
      case Found(_) => Accept
      case Forbidden => Reject
      case Failed => Raise
  }

  /** The manual-entry checker as the prompt receives it. */
  function GuildChecker(fetch: int -> GuildFetch): string -> Verdict {
    s => GuildVerdict(fetch, s)
  }

  /** The id prompt has no default, so every line is taken as typed; an
      accepted or raising value is one of the typed lines. */
  lemma ManualAnswer(lines: seq<string>, fetch: int -> GuildFetch)
    ensures var answer := InputPrompt(lines, "", Check(GuildChecker(fetch)));
      && (answer.Done? ==> exists i :: 0 <= i < |lines| && answer.value == lines[i]
                                      && GuildVerdict(fetch, lines[i]) == Accept)
      && (answer.Raised? ==> exists i :: 0 <= i < |lines| && GuildVerdict(fetch, lines[i]) == Raise)
  {
    var answer := InputPrompt(lines, "", Check(GuildChecker(fetch)));
    if answer.Done? {
      var i :| 0 <= i < |lines| && answer.value == Fill(lines[i], "");
      assert Fill(lines[i], "") == lines[i];
    }
    if answer.Raised? {
      var i :| 0 <= i < |lines| && GuildChecker(fetch)(Fill(lines[i], "")) == Raise;
      assert Fill(lines[i], "") == lines[i];
    }
  }

  /** The second `client.fetch_guild` call, made after the checker accepted
      the id: nothing catches its errors, so anything but the guild raises. */
  function FetchAgain(refetch: int -> GuildFetch, id: int): (r: Outcome<Guild>)
    ensures !r.Unanswered?
    ensures r.Done? <==> refetch(id).Found?
    ensures r.Done? ==> r.value == refetch(id).guild
  {
    match refetch(id)
    case Found(g) => Done(g)
    case Forbidden => Raised
    case Failed => Raised
  }

  /** Manual entry: prompt for an id (no default) until the checker accepts
      it, then fetch that guild again. `fetch` answers the checker's call and
      `refetch` the second call; the first accepted id decides the result. */
  function ManualGuild(lines: seq<string>, fetch: int -> GuildFetch, refetch: int -> GuildFetch): (r: Outcome<Guild>)
    ensures r.Done? ==> exists i :: 0 <= i < |lines| && ParseInt(lines[i]).Some?
                                    && fetch(ParseInt(lines[i]).value).Found?
                                    && refetch(ParseInt(lines[i]).value) == Found(r.value)
    ensures r.Raised? ==> exists i :: 0 <= i < |lines| && ParseInt(lines[i]).Some?
                                      && (|| fetch(ParseInt(lines[i]).value).Failed?
                                          || (fetch(ParseInt(lines[i]).value).Found?
                                              && !refetch(ParseInt(lines[i]).value).Found?))
    ensures r.Unanswered? <==> AllRejected(lines, "", GuildChecker(fetch), |lines|)
    ensures forall i :: 0 <= i < |lines| && AllRejected(lines, "", GuildChecker(fetch), i) ==>
      && (GuildVerdict(fetch, lines[i]) == Accept ==> r == FetchAgain(refetch, ParseInt(lines[i]).value))
      && (GuildVerdict(fetch, lines[i]) == Raise ==> r == Raised)
  {
    InputPromptUnanswered(lines, "", GuildChecker(fetch));
    InputPromptDecidedAt(lines, "", GuildChecker(fetch));
    ManualAnswer(lines, fetch);
    match InputPrompt(lines, "", Check(GuildChecker(fetch)))
    case Done(v) => FetchAgain(refetch, ParseInt(v).value)
    case Raised => Raised
    case Unanswered => Unanswered
  }

  /** When the second call answers as the checker's call did, manual entry
      raises only for an id whose fetch failed outright. */
  lemma ManualGuildSameFetch(lines: seq<string>, fetch: int -> GuildFetch)
    ensures ManualGuild(lines, fetch, fetch).Raised? ==>
      exists i :: 0 <= i < |lines| && ParseInt(lines[i]).Some? && fetch(ParseInt(lines[i]).value).Failed?
  {
  }

  /** The operator's answers to `request_guild`: the "Choose / Manually"
      menu, the guild menu, and the lines typed for manual entry. */
  datatype GuildAnswers = GuildAnswers(mode: Option<nat>, pick: Option<nat>, typed: seq<string>)

  /** `request_guild`: fetch up to 51 guilds, decide the mode from their
      number, then pick from the list or read an id. */
  function RequestGuild(accessible: seq<Guild>, answers: GuildAnswers, fetch: int -> GuildFetch, refetch: int -> GuildFetch)
    : (r: Outcome<Guild>)
    ensures |accessible| > 50 ==> r == ManualGuild(answers.typed, fetch, refetch)
    ensures |accessible| <= 10 ==> r == PickFromList(accessible, answers.pick)
    ensures 11 <= |accessible| <= 50 ==>
      r == if answers.mode == Some(1) then ManualGuild(answers.typed, fetch, refetch)
           else PickFromList(accessible, answers.pick)
    ensures r.Done? ==> r.value in accessible || exists id :: refetch(id) == Found(r.value)
  {
    var guilds := Take(accessible, GuildFetchLimit);
    var manual := match SelectionMode(|guilds|)
      case ManualEntry => true
      case PickList => false
      case AskUser => answers.mode == Some(1);
    if manual then ManualGuild(answers.typed, fetch, refetch) else PickFromList(guilds, answers.pick)
  }

  /** The three boundaries: 51 fetched guilds force manual entry whatever
      the menus say, 10 show the list without asking, 11 ask first. */
  lemma GuildThresholds(accessible: seq<Guild>, answers: GuildAnswers, fetch: int -> GuildFetch, refetch: int -> GuildFetch)
    ensures |accessible| == 51 ==> RequestGuild(accessible, answers, fetch, refetch) == ManualGuild(answers.typed, fetch, refetch)
    ensures |accessible| == 10 ==>
      RequestGuild(accessible, answers, fetch, refetch) == RequestGuild(accessible, answers.(mode := None), fetch, refetch)
    ensures |accessible| == 11 ==>
      RequestGuild(accessible, answers.(mode := Some(1)), fetch, refetch) == ManualGuild(answers.typed, fetch, refetch)
    ensures |accessible| == 11 ==>
      RequestGuild(accessible, answers.(mode := Some(0)), fetch, refetch) == PickFromList(accessible, answers.pick)
  {
  }

  /** `request_channels`' filter: the text channels, in fetch order. */
  function TextChannels(channels: seq<Channel>): (r: seq<Channel>)
    ensures |r| <= |channels|
    ensures forall k :: 0 <= k < |r| ==> r[k].kind == TextChannel
  {
    if |channels| == 0 then []
    else
      var rest := TextChannels(channels[1..]);
      if channels[0].kind == TextChannel then [channels[0]] + rest else rest
  }

  /** The filter keeps every text channel and nothing else. */
  lemma {:induction false} TextChannelsMembers(channels: seq<Channel>)
    ensures forall c :: c in TextChannels(channels) <==> c in channels && c.kind == TextChannel
    decreases |channels|
  {
    if |channels| > 0 {
      TextChannelsMembers(channels[1..]);
      assert forall c :: c in channels <==> c == channels[0] || c in channels[1..];
    }
  }

  /** The filter keeps fetch order: filtering a concatenation filters each
      part in turn. */
  lemma {:induction false} TextChannelsAppend(a: seq<Channel>, b: seq<Channel>)
    ensures TextChannels(a + b) == TextChannels(a) + TextChannels(b)
    decreases |a|
  {
    if |a| == 0 {
      assert a + b == b;
    } else {
      TextChannelsAppend(a[1..], b);
      assert (a + b)[0] == a[0];
      assert (a + b)[1..] == a[1..] + b;
      assert TextChannels(a + b) == (if a[0].kind == TextChannel then [a[0]] else []) + TextChannels(a[1..] + b);
      assert TextChannels(a) == (if a[0].kind == TextChannel then [a[0]] else []) + TextChannels(a[1..]);
    }
  }

  /** A single channel is kept exactly when it is a text channel. */
  lemma TextChannelsSingle(c: Channel)
    ensures TextChannels([c]) == if c.kind == TextChannel then [c] else []
  {
    assert [c][1..] == [];
  }

  /** The options of the channel menu: one `"<id> (#<name>)"` per offered
      channel. */
  function ChannelOptions(offered: seq<Channel>): (labels: seq<string>)
    ensures |labels| == |offered|
    ensures forall i :: 0 <= i < |offered| ==> LabelId(labels[i]) == Some(offered[i].id)
    ensures forall i :: 0 <= i < |offered| ==> labels[i] == Label(offered[i].id, "#" + offered[i].name)
  {
    LabelRoundTripAll();
    seq(|offered|, i requires 0 <= i < |offered| => Label(offered[i].id, "#" + offered[i].name))
  }

  /** `[options[select] for select in selected]`: a dismissed menu (`None`)
      or an index past the end raises. */
  function SelectChannels(offered: seq<Channel>, selected: Option<seq<nat>>): (r: Outcome<seq<Channel>>)
    ensures !r.Unanswered?
    ensures r.Done? <==> selected.Some? && forall k :: 0 <= k < |selected.value| ==> selected.value[k] < |offered|
    ensures r.Done? ==> |r.value| == |selected.value|
    ensures r.Done? ==> forall k :: 0 <= k < |r.value| ==> r.value[k] == offered[selected.value[k]]
  {
    match selected
    case None => Raised
    case Some(picks) =>
      if forall k :: 0 <= k < |picks| ==> picks[k] < |offered| then
        Done(seq(|picks|, k requires 0 <= k < |picks| => offered[picks[k]]))
      else Raised
  }

  /** `request_channels`: offer the text channels and return the selected
      ones, in selection order. */
  function RequestChannels(channels: seq<Channel>, selected: Option<seq<nat>>): (r: Outcome<seq<Channel>>)
    ensures r.Done? ==> forall c :: c in r.value ==> c in channels && c.kind == TextChannel
    ensures r.Done? ==> selected.Some? && |r.value| == |selected.value|
    ensures !r.Unanswered?
    ensures r.Done? <==>
      && selected.Some?
      && forall k :: 0 <= k < |selected.value| ==> selected.value[k] < |TextChannels(channels)|
    ensures r.Done? ==> forall k :: 0 <= k < |r.value| ==> r.value[k] == TextChannels(channels)[selected.value[k]]
  {
    var offered := TextChannels(channels);
    TextChannelsMembers(channels);
    var r := SelectChannels(offered, selected);
    assert r.Done? ==> forall c :: c in r.value ==> c in offered by {
      if r.Done? {
        forall c | c in r.value ensures c in offered {
          var k :| 0 <= k < |r.value| && r.value[k] == c;
        }
      }
    }
    r
  }
}

=== FILE: wrappers.dfy ===
/** Small failure-carrying datatypes shared by the rest of the model. */
module Wrappers {

  /** A value that may be absent: Python's `None` versus a present value. */
  datatype Option<+T> = None | Some(value: T)
}
